=== FILE: README.md ===
# snap_cursor_stack in Dafny

A model of the drag-and-snap core of `snap_cursor_stack`: vertical "snap
cursors" over a shared, strictly increasing x-data sequence, kept sorted by
data index, which the user drags with the pointer. A dragged cursor snaps to
the nearest sample and, unless a cursor is added during the drag, can never
collide with or cross its neighbours.

Files and modules:

- `wrappers.dfy` — `Wrappers`: `Option` and `Result` (a value, or the error raised).
- `cursor.dfy` — `Cursors`: the `Cursor` entity (data index, one line and one
  point per pane, optional annotation text), the `Plot` it is drawn over
  (x data, and each pane's line y data), creation, `set_xdata_ind`, the
  accessors and the six comparison operators.
- `stack.dfy` — `SnapCursorStack`: the stack state (`cursors`, `handlers`,
  `pickList`, and `state = Idle | Dragging(pos, left, right, snapshot) | Stuck(pos)`),
  its representation invariant `Valid`, and one pure transition per source
  operation: `AddCursor` (validation, then `insort` through `BisectRight`),
  `AddHandler`/`RemoveHandler`, `Annotate`, `Pick`, `Press` (top artist by
  z-order through `TopIndex`, then `MoveRange`; `PressRaised` for the stack
  a raising press leaves behind), `Motion` (snap through
  `ClosestIndex`/`ArgMin`, or end of drag on leaving the panes), `Release`
  and `DisableDragMode`.
- `properties.dfy` — `StackProperties`: runs of pointer events (which go on
  after a press raises, as the host's event dispatch does), the "handlers
  fire iff something moved" theorem, handler round trips.
- `scenarios.dfy` — `Scenarios`: concrete runs over ten samples.

Floats are exact `real`s. Cursors are values; the picked cursor is its
position in the sorted sequence (a drag never reorders cursors, which is
what the model proves). Handlers are opaque identities; a transition returns
the handlers it called, in call order, instead of calling them. A Python
exception becomes `Failure(error)`; for a raising press, `PressRaised` gives
the stack the exception leaves behind, and a run of events carries on from it.

The key result: with `xdata` strictly increasing, when the pointer lies in
`[xdata[left], xdata[right]]` the nearest index over the whole of `xdata`
already lies in `[left, right]` (`ClosestIndex`), and `[left, right]` is
exactly the gap between the picked cursor's neighbours (`MoveRange`), so
every drag step keeps the cursor indices strictly increasing and leaves
every other cursor unchanged (`Motion`, `RunPointer`). This holds for runs of
pointer events; a cursor added during a drag leaves the drag bounds stale
(see `AddDuringDragScenario` and "## Left out").

Behaviour of the code kept as written:

- Pressing on the only cursor raises IndexError reading its missing
  neighbour (snap_cursor_stack.py:161-164): `Press` returns
  `Failure(NoNeighbour)`, so a single cursor cannot be dragged. Line 140 has
  already recorded the cursor as picked, and no snapshot was taken, so the
  stack is left `Stuck(0)`. Moves then change nothing (no drag handler was
  connected), and the next release runs the drag-end code, which compares
  the missing snapshot (`None`) with the x values, finds them different, and
  calls every moved handler although no cursor moved
  (`OneCursorPressThenRelease`).
- An index past the end of xdata is not checked by `add_cursor`; it raises
  IndexError when the cursor draws its line (cursor.py:21):
  `Failure(IndexOutOfRange)`.
- When the top picked artist belongs to no cursor, the previously picked
  cursor stays picked if there is one; otherwise `cursors.index(None)`
  raises: `Failure(NoPickedCursor)`.
- A second press during a drag re-picks and takes a new snapshot.
- The bisection result at snap_cursor_stack.py:205-207 is overwritten at
  line 209 and never used; only clamp-then-argmin is modelled.
- `clear()` is evidently meant to remove every cursor, but the code calls a
  `remove` method that `Cursor` does not define and never empties the list;
  it is left out.

## Model

| member | source | states |
|---|---|---|
| Cursors.Create | snap_cursor_stack/cursor.py:2-28 | a new cursor reports the index it was given, its lines and points sit at that sample in every pane, it has no text; an index past the end of xdata raises IndexError |
| Cursors.SetXDataInd | snap_cursor_stack/cursor.py:111-126 | after the move the cursor reports index `v` and x value `xdata[v]`, all markers sit at `v`, text is kept; moving to the current index leaves the cursor identical |
| Cursors.GetXDataInd | snap_cursor_stack/cursor.py:122-123 | the accessor reports the cursor's data index |
| Cursors.GetXData | snap_cursor_stack/cursor.py:125-126 | the cursor's x value is `xdata` at its index, and on strictly increasing xdata no other index has that x value |
| Cursors.SetXDataIndIdempotent | snap_cursor_stack/cursor.py:111-120 | moving twice to the same index equals moving once |
| Cursors.PlacedDeterminesMarkers | snap_cursor_stack/cursor.py:114-119 | two placed cursors have the same markers iff they have the same index |
| Cursors.EqualityByIndex | snap_cursor_stack/cursor.py:128-136 | `==` and `!=` depend only on the indices and are exact complements |
| Cursors.LtStrictTotalOrder | snap_cursor_stack/cursor.py:138-146 | `<` is irreflexive, transitive, asymmetric and total on distinct indices; `a > b` equals `b < a` |
| Cursors.LeGeReversed | snap_cursor_stack/cursor.py:148-156 | as written, `a <= b` holds iff `b < a` or equal, and `a >= b` iff `a < b` or equal: the converses of their names |
| Cursors.LeAsWrittenCounterexample | snap_cursor_stack/cursor.py:148-151 | cursors at 1 and 2: `c1 < c2` holds but `c1 <= c2` does not |
| Cursors.IntendedLeGe | snap_cursor_stack/cursor.py:148-156 | the intended `<=`/`>=` are the reflexive closures of `<`/`>` and converse to each other |
| SnapCursorStack.Empty | snap_cursor_stack/snap_cursor_stack.py:25-36 | a new stack has no cursors, no handlers, nothing picked and is idle |
| SnapCursorStack.EmptyValid | snap_cursor_stack/snap_cursor_stack.py:25-36 | the new stack satisfies the stack invariant |
| SnapCursorStack.Indices | snap_cursor_stack/snap_cursor_stack.py:50-51 | one index per cursor, in stack order |
| SnapCursorStack.XValues | snap_cursor_stack/snap_cursor_stack.py:47-48 | one x value per cursor, `xdata` at its index, in stack order |
| SnapCursorStack.AddHandler | snap_cursor_stack/snap_cursor_stack.py:53-55 | the handler is registered afterwards; an already registered handler changes nothing; otherwise it is appended; no duplicates arise |
| SnapCursorStack.RemoveFirst | snap_cursor_stack/snap_cursor_stack.py:59 | `list.remove` on a handler list: an absent handler changes nothing; a present one shortens the list by one and no other handler is lost or gained |
| SnapCursorStack.RemoveFirstAt | snap_cursor_stack/snap_cursor_stack.py:59 | `list.remove` cuts out exactly the first occurrence and keeps the others in order |
| SnapCursorStack.RemoveFirstAppended | snap_cursor_stack/snap_cursor_stack.py:59 | `list.remove` of a handler that occurs only as the last element gives back the list before it |
| SnapCursorStack.RemoveFirstSplits | snap_cursor_stack/snap_cursor_stack.py:57-59 | without duplicates, removing a registered handler leaves the handlers before it and after it, in order |
| SnapCursorStack.RemoveHandler | snap_cursor_stack/snap_cursor_stack.py:57-59 | afterwards the handler is absent and exactly the other handlers remain, in their registration order; an absent handler changes nothing; no duplicates arise |
| SnapCursorStack.Annotate | snap_cursor_stack/snap_cursor_stack.py:61-66 | fails iff the text count differs from the cursor count; otherwise text i goes to cursor i and nothing else changes |
| SnapCursorStack.BisectRight | snap_cursor_stack/snap_cursor_stack.py:81 | the split point: every cursor before it is not greater than the new one, every cursor from it on is greater |
| SnapCursorStack.Insort | snap_cursor_stack/snap_cursor_stack.py:81 | the result has the old cursors plus exactly the new one, stays sorted, and stays strictly sorted when the new index is fresh |
| SnapCursorStack.InsortKeepsCursors | snap_cursor_stack/snap_cursor_stack.py:81 | after insort every old cursor sits at its old position, or one further when the new cursor went before it |
| SnapCursorStack.RetargetPicks | snap_cursor_stack/snap_cursor_stack.py:122-140 | after an insertion each pending pick keeps its z-order and still names the same cursor at its shifted position; a pick of no cursor still names none |
| SnapCursorStack.InsertCursor | snap_cursor_stack/snap_cursor_stack.py:81 | insort of a fresh cursor: one cursor added, the picked cursor and every pending pick still refer to the same cursor objects, handlers and drag bounds unchanged, strict order kept |
| SnapCursorStack.AddCursor | snap_cursor_stack/snap_cursor_stack.py:68-81 | negative index fails, then an occupied index fails, then an index past xdata fails, each leaving the stack unchanged; otherwise exactly one cursor with that index is added, the picked cursor and the owners of pending picks stay the same cursors, the indices stay strictly increasing, and outside a drag the invariant holds |
| SnapCursorStack.AddCursorAsWritten | snap_cursor_stack/snap_cursor_stack.py:68-81 | as written, every call raises: the validation errors, or TypeError from the constructor call |
| SnapCursorStack.AddCursorArityDiscrepancy | snap_cursor_stack/snap_cursor_stack.py:79-80 | every index the intended insertion accepts is refused by the code as written |
| SnapCursorStack.Pick | snap_cursor_stack/snap_cursor_stack.py:122-123 | a pick appends the artist to the pick list and changes nothing else |
| SnapCursorStack.TopIndex | snap_cursor_stack/snap_cursor_stack.py:132-136 | the chosen artist has maximal z-order and every earlier artist has strictly lower z-order (stable descending sort) |
| SnapCursorStack.MoveRange | snap_cursor_stack/snap_cursor_stack.py:160-173 | one cursor fails; otherwise left is 0 or the left neighbour's index + 1, right is len(xdata)-1 or the right neighbour's index - 1, the picked index lies in [left, right] and no other cursor does |
| SnapCursorStack.Press | snap_cursor_stack/snap_cursor_stack.py:125-151 | a non-left button or empty pick list changes nothing; otherwise the pick list is emptied, the top artist's cursor (or, when it has no owner, the cursor already picked) is dragged with its neighbour bounds and a snapshot of the x values; the failure cases are exactly the one-cursor and no-owner cases |
| SnapCursorStack.Dist | snap_cursor_stack/snap_cursor_stack.py:221 | the distance is non-negative, at least each signed difference, and zero exactly for equal values |
| SnapCursorStack.DistIsAbs | snap_cursor_stack/snap_cursor_stack.py:221 | the distance equals one of the signed differences, so with the bounds above it is exactly the absolute difference `np.abs(x - xdata)` |
| SnapCursorStack.ArgMin | snap_cursor_stack/snap_cursor_stack.py:221-222 | the result is an index of least distance to x, and strictly closer than every earlier index |
| SnapCursorStack.ClosestIndex | snap_cursor_stack/snap_cursor_stack.py:214-222 | left when x < xdata[left], right when x > xdata[right], else the first nearest index over all of xdata; with xdata strictly increasing the result lies in [left, right] |
| SnapCursorStack.PressRaised | snap_cursor_stack/snap_cursor_stack.py:136-144 | after a raising press the pick list is empty and cursors and handlers are unchanged; on the one-cursor IndexError the cursor stays picked with no snapshot, on the no-owner error the stack stays idle; the invariant holds |
| SnapCursorStack.DisableDragMode | snap_cursor_stack/snap_cursor_stack.py:180-190 | after a drag, the handlers are called in registration order iff the x values differ from the snapshot; after a raising press (no snapshot) all of them are called; the stack becomes idle with cursors and handlers unchanged |
| SnapCursorStack.Release | snap_cursor_stack/snap_cursor_stack.py:175-178 | idle: nothing happens; otherwise the drag (or stuck pick) ends and the stack is idle |
| SnapCursorStack.DragBoundsInRange | snap_cursor_stack/snap_cursor_stack.py:160-173 | while dragging, the bounds lie within xdata and around the picked cursor's index |
| SnapCursorStack.DragStepKeepsValid | snap_cursor_stack/snap_cursor_stack.py:200-211 | moving the picked cursor to any index within its bounds keeps the stack invariant |
| SnapCursorStack.Motion | snap_cursor_stack/snap_cursor_stack.py:200-211 | no drag in progress: nothing changes; leaving the panes ends the drag; otherwise the picked cursor moves to the snapped index `ClosestIndex(xdata, left, right, x)`, which lies within its bounds, no other cursor moves, and the invariant (strict order included) is kept |
| StackProperties.HandlePointer | snap_cursor_stack/snap_cursor_stack.py:38-45 | every pointer event keeps the invariant and the handlers; only a press raises, exactly when `Press` fails, leaving the `PressRaised` stack; calls, if any, are the whole handler list |
| StackProperties.RunPointer | snap_cursor_stack/snap_cursor_stack.py:122-211 | any run of pointer events, continuing past raised errors, keeps the cursors strictly sorted and the invariant; without presses nothing is raised; only registered handlers are called |
| StackProperties.DragTo | snap_cursor_stack/snap_cursor_stack.py:200-211 | successive in-pane moves keep the drag state, move only the picked cursor, keep it within its bounds, and leave it at the snapped index of the last pointer x |
| StackProperties.OneCursorPressThenRelease | snap_cursor_stack/snap_cursor_stack.py:136-190 | with one cursor, a left press on it raises IndexError, and the following release calls every handler although no cursor moved, leaving the stack idle |
| StackProperties.AnnotateKeepsValid | snap_cursor_stack/snap_cursor_stack.py:61-66 | annotating with one text per cursor succeeds and keeps the stack invariant |
| StackProperties.XValuesInjective | snap_cursor_stack/snap_cursor_stack.py:47-51 | with xdata strictly increasing, equal x values and equal indices are the same condition |
| SnapCursorStack.PlacedIndices | snap_cursor_stack/snap_cursor_stack.py:47-51 | every cursor of a valid stack holds an index inside xdata |
| StackProperties.PressDragRelease | snap_cursor_stack/snap_cursor_stack.py:148-190 | after press, moves and release, the handlers are called once each in registration order iff some cursor index changed, and the stack is idle |
| StackProperties.AddThenRemoveHandler | snap_cursor_stack/snap_cursor_stack.py:53-59 | registering a new handler and removing it restores the list |
| StackProperties.HandlerRegistrationIdempotent | snap_cursor_stack/snap_cursor_stack.py:53-59 | adding twice equals adding once; removing twice equals removing once |
| StackProperties.TopPickUnique | snap_cursor_stack/snap_cursor_stack.py:132-136 | exactly one artist meets the top-pick description |
| StackProperties.FirstNearestUnique | snap_cursor_stack/snap_cursor_stack.py:221-222 | exactly one index meets the first-nearest description |
| Scenarios.AddScenario | snap_cursor_stack/snap_cursor_stack.py:68-81 | over xdata 0..9, adding 2 and then 7 to a new stack gives indices [2, 7] |
| Scenarios.DragScenario | snap_cursor_stack/snap_cursor_stack.py:125-222 | xdata 0..9, cursors at 2 and 7, the line of the cursor at 2 picked: bounds (0, 6); pointer at 6.9 moves the cursor to 6; release fires the handler; pointer at -3 moves it to 0 |
| Scenarios.PickSurvivesAddScenario | snap_cursor_stack/snap_cursor_stack.py:68-173 | a cursor at 5 picked, a right press, a cursor added at 2: the left press drags the cursor at 5 with bounds (3, 9) |
| Scenarios.AddDuringDragScenario | snap_cursor_stack/snap_cursor_stack.py:68-81 | xdata 0..9, cursors at 2 and 8, the cursor at 8 dragged with bounds (3, 9): adding 6 gives indices [2, 6, 8] with the same bounds, the stack invariant fails, and the pointer at 4.0 snaps to 4, left of the new cursor |
| Scenarios.DuplicateScenario | snap_cursor_stack/snap_cursor_stack.py:75-77 | a second cursor at 3 is refused and the stack keeps one cursor |
| Scenarios.SnapScenario | snap_cursor_stack/snap_cursor_stack.py:214-222 | 4.4 snaps to 4, the midpoint 4.5 to 4 (first index wins), 4.6 to 5; beyond the right bound to the bound |

## Findings

| source | as written | input that shows it | evidently intended | confidence | as-written member | corrected member |
|---|---|---|---|---|---|---|
| snap_cursor_stack/snap_cursor_stack.py:79-80 | `Cursor(xdata, xdata_ind, ydata, axes, **kwargs)` passes four positional arguments to a constructor that takes three (cursor.py:2), so TypeError is raised after validation | any valid index, e.g. 0 on an empty stack over one sample | construct the cursor from xdata, the index and the axes, then insort it | high; not executed | SnapCursorStack.AddCursorAsWritten | SnapCursorStack.AddCursor |
| snap_cursor_stack/cursor.py:148-156 | `__le__` returns `self >= other` and `__ge__` returns `self <= other` | cursors at 1 and 2: `c1 <= c2` is False | `<=` and `>=` as the reflexive closures of `<` and `>` | high; not executed | Cursors.Le | Cursors.LeIntended |

`insort` uses only `<`, so the swapped operators do not affect insertion.

## Left out

- Host wiring: `mpl_connect`/`mpl_disconnect`, `draw_idle` and the synthetic `motion_notify_event` after a drag (snap_cursor_stack.py:38-45, 83-84, 153-158, 192-198) are plumbing; `HandlePointer` stands for the dispatch.
- Hover pointer affordance through the Qt override cursor (snap_cursor_stack.py:90-120): global UI state; a move while idle changes nothing in the model.
- Annotation rendering, ylim callbacks, focus z-order changes, `__hash__`, `__del__` (cursor.py:31-103): presentation; only the text a cursor carries is kept.
- Hit testing (`Cursor.contains`, cursor.py:105-109) and artist picking: abstracted as the pick list of (z-order, owner position) pairs.
- The one-figure configuration check (snap_cursor_stack.py:16-21, cursor.py:3-8): it works over opaque host objects.
- `clear()` (snap_cursor_stack.py:86-88): it calls a method `Cursor` does not define.
- The dead bisection helper (snap_cursor_stack.py:224-233) and floating-point detail of `np.abs`/`np.argmin`: exact reals are used.
- TypeErrors for a non-integer index or comparing with a non-cursor: ruled out by Dafny's types.
- The state Python leaves behind when `add_cursor` or `annotate` raises: both raise before changing anything, so the failure carries no state; for a raising press the state is modelled by `PressRaised`.
- Picks reported before a press with another button stay in the pick list (line 126 returns before it is cleared); the model keeps them, as the code does. The pick list holds artists, so a cursor added in between does not change which cursor a pending pick names; `AddCursor` shifts the owner positions to match.
- What a called handler does: handlers are identities, returned in call order; a handler that re-registers handlers while being called is not modelled.
- `Plot.Valid` assumes each pane's line has one y value per x value and at least one pane; a shorter line would raise IndexError in the source.
- Cursors.Create: requires a non-negative index, which `add_cursor` has already checked; Python would read a negative index from the end.
- SnapCursorStack.AddCursor: the full invariant (bounds matching the neighbours) is stated only for an insertion while no drag is in progress. During a drag the source does not recompute the drag bounds, so the indices are strictly sorted only until the next move. Over xdata 0..9 with cursors at 2 and 8 and the cursor at 8 dragged with bounds (3, 9), adding 6 keeps the bounds (3, 9); a move to 4.0 then gives indices [2, 6, 4], and a move to 6.0 gives two cursors at 6, after which `cursors.index` (line 144) can find the wrong one (`AddDuringDragScenario`). `Motion` requires the invariant, so the model does not follow a drag past such an insertion.
- setup.py: packaging only.

=== FILE: cursor.dfy ===
/**
  A snap cursor: a vertical marker, one per pane, tied to an index into the
  shared x-data sequence. The cursor never stores a raw coordinate as its
  identity; its markers are drawn at `xdata[ind]`.
 */
module Cursors {
  import opened Wrappers

  /** The error a cursor raises: IndexError when its index is read past the end of xdata. */
  datatype CursorError = IndexError

  /** The strictly increasing order every x-data sequence is required to have. */
  ghost predicate StrictlyIncreasing(xs: seq<real>) {
    forall i, j :: 0 <= i < j < |xs| ==> xs[i] < xs[j]
  }

  /**
    The data the cursors are drawn over: the shared x values and, for each
    pane, the y values of the pane's first line (the one point overlays sit on).
   */
  datatype Plot = Plot(xdata: seq<real>, ydata: seq<seq<real>>) {
    /** At least one pane, every pane's line as long as xdata, xdata strictly increasing. */
    ghost predicate Valid() {
      && |ydata| > 0
      && (forall k :: 0 <= k < |ydata| ==> |ydata[k]| == |xdata|)
      && StrictlyIncreasing(xdata)
    }
  }

  datatype Point = Point(x: real, y: real)

  /**
    A cursor: its data index, the x position of its vertical line in each
    pane, its point overlay in each pane, and its annotation text if any.
   */
  datatype Cursor = Cursor(ind: int, lines: seq<real>, points: seq<Point>, text: Option<string>)

  /** The cursor's index is inside xdata and every marker is drawn at that index. */
  ghost predicate Placed(c: Cursor, plot: Plot)
    requires plot.Valid()
  {
    && 0 <= c.ind < |plot.xdata|
    && |c.lines| == |plot.ydata|
    && |c.points| == |plot.ydata|
    && (forall k :: 0 <= k < |c.lines| ==> c.lines[k] == plot.xdata[c.ind])
    && (forall k :: 0 <= k < |c.points| ==>
          c.points[k] == Point(plot.xdata[c.ind], plot.ydata[k][c.ind]))
  }

  /** The markers of a cursor drawn at index `i`, one per pane. */
  function Markers(plot: Plot, i: nat): (m: (seq<real>, seq<Point>))
    requires plot.Valid() && i < |plot.xdata|
  {
    (seq(|plot.ydata|, k => plot.xdata[i]),
     seq(|plot.ydata|, k requires 0 <= k < |plot.ydata| => Point(plot.xdata[i], plot.ydata[k][i])))
  }

  /**
    Constructing a cursor at index `i` (whose caller has already rejected a
    negative index): drawing its markers reads `xdata[i]`, which raises
    IndexError past the end.
   */
  function Create(plot: Plot, i: int): (r: Result<Cursor, CursorError>)
    requires plot.Valid() && 0 <= i
    ensures r.Failure? <==> i >= |plot.xdata|
    ensures r.Failure? ==> r.error == IndexError
    ensures r.Success? ==> Placed(r.value, plot) && GetXDataInd(r.value) == i
    ensures r.Success? ==> GetXData(r.value, plot) == plot.xdata[i]
    ensures r.Success? ==> r.value.text == None
  {
    if i >= |plot.xdata| then Failure(IndexError)
    else
      var m := Markers(plot, i);
      Success(Cursor(i, m.0, m.1, None))
  }

  /**
    Moving a cursor to index `v`: nothing happens when `v` is the current
    index; otherwise every line and point is redrawn at `v`.
   */
  function SetXDataInd(c: Cursor, plot: Plot, v: int): (r: Cursor)
    requires plot.Valid() && Placed(c, plot) && 0 <= v < |plot.xdata|
    ensures Placed(r, plot)
    ensures GetXDataInd(r) == v && GetXData(r, plot) == plot.xdata[v]
    ensures r.text == c.text
    ensures v == GetXDataInd(c) ==> r == c
  {
    if v == c.ind then c
    else
      var m := Markers(plot, v);
      c.(ind := v, lines := m.0, points := m.1)
  }

  /** The cursor's data index. */
  function GetXDataInd(c: Cursor): (r: int)
    ensures r == c.ind
  {
    c.ind
  }

  /** The cursor's x value; on a valid plot it names the cursor's index and no other. */
  function GetXData(c: Cursor, plot: Plot): (r: real)
    requires 0 <= c.ind < |plot.xdata|
    ensures r == plot.xdata[GetXDataInd(c)]
    ensures plot.Valid() ==> forall j :: 0 <= j < |plot.xdata| && plot.xdata[j] == r ==> j == GetXDataInd(c)
  {
    plot.xdata[c.ind]
  }

  /** Moving twice to the same index is the same as moving once. */
  lemma SetXDataIndIdempotent(c: Cursor, plot: Plot, v: int)
    requires plot.Valid() && Placed(c, plot) && 0 <= v < |plot.xdata|
    ensures SetXDataInd(SetXDataInd(c, plot, v), plot, v) == SetXDataInd(c, plot, v)
  {
  }

  /** Two placed cursors at the same index carry the same markers. */
  lemma {:induction false} PlacedDeterminesMarkers(a: Cursor, b: Cursor, plot: Plot)
    requires plot.Valid() && Placed(a, plot) && Placed(b, plot)
    ensures a.ind == b.ind <==> (a.lines, a.points) == (b.lines, b.points)
  {
    if a.ind == b.ind {
      assert a.lines == b.lines;
      assert a.points == b.points;
    } else {
      assert plot.xdata[a.ind] != plot.xdata[b.ind];
      assert a.points[0] != b.points[0];
    }
  }

  // Comparison operators. Each compares the two data indices only.

  predicate Eq(a: Cursor, b: Cursor) { a.ind == b.ind }
  predicate Ne(a: Cursor, b: Cursor) { a.ind != b.ind }
  predicate Lt(a: Cursor, b: Cursor) { a.ind < b.ind }
  predicate Gt(a: Cursor, b: Cursor) { a.ind > b.ind }

  /** `__le__` as written: it holds when the left index is the GREATER one. */
  predicate Le(a: Cursor, b: Cursor) { a.ind >= b.ind }

  /** `__ge__` as written: it holds when the left index is the SMALLER one. */
  predicate Ge(a: Cursor, b: Cursor) { a.ind <= b.ind }

  /** `<=` as its name promises. */
  predicate LeIntended(a: Cursor, b: Cursor) { a.ind <= b.ind }

  /** `>=` as its name promises. */
  predicate GeIntended(a: Cursor, b: Cursor) { a.ind >= b.ind }

  /** Equality and inequality look only at the indices and are exact complements. */
  lemma EqualityByIndex(a: Cursor, b: Cursor, a': Cursor, b': Cursor)
    requires a.ind == a'.ind && b.ind == b'.ind
    ensures Eq(a, b) == Eq(a', b') && Ne(a, b) == Ne(a', b')
    ensures Ne(a, b) == !Eq(a, b)
  {
  }

  /** `<` is irreflexive, transitive and total on distinct indices; `>` is its converse. */
  lemma LtStrictTotalOrder(a: Cursor, b: Cursor, c: Cursor)
    ensures !Lt(a, a)
    ensures Lt(a, b) && Lt(b, c) ==> Lt(a, c)
    ensures Lt(a, b) ==> !Lt(b, a)
    ensures Ne(a, b) ==> Lt(a, b) || Lt(b, a)
    ensures Gt(a, b) == Lt(b, a)
  {
  }

  /** As written, `__le__` and `__ge__` are the converses of what their names say. */
  lemma LeGeReversed(a: Cursor, b: Cursor)
    ensures Le(a, b) <==> Lt(b, a) || Eq(a, b)
    ensures Ge(a, b) <==> Lt(a, b) || Eq(a, b)
    ensures Le(a, b) == GeIntended(a, b) && Ge(a, b) == LeIntended(a, b)
  {
  }

  /** A pair of cursors on which the written `__le__` disagrees with `<`. */
  lemma LeAsWrittenCounterexample()
    ensures var a := Cursor(1, [], [], None); var b := Cursor(2, [], [], None);
            Lt(a, b) && !Le(a, b) && !Ge(b, a)
  {
  }

  /** The intended `<=` and `>=` are the reflexive closures of `<` and `>`. */
  lemma IntendedLeGe(a: Cursor, b: Cursor)
    ensures LeIntended(a, b) <==> Lt(a, b) || Eq(a, b)
    ensures GeIntended(a, b) <==> Gt(a, b) || Eq(a, b)
    ensures LeIntended(a, b) == GeIntended(b, a)
  {
  }
}

=== FILE: properties.dfy ===
/**
  Properties of the cursor stack that span several events: the stack stays
  strictly sorted through any run of pointer events, a drag fires the moved
  handlers exactly when it changed a cursor, and handler registration
  round-trips.
 */
module StackProperties {
  import opened Wrappers
  import opened Cursors
  import opened SnapCursorStack

  /** The host's pointer events, as the stack receives them. */
  datatype PointerEvent =
    | PickEvent(artist: Artist)
    | PressEvent(button: Button)
    | MotionEvent(inAxes: bool, x: real)
    | ReleaseEvent

  /**
    The stack after one event, the handlers called, and the error the
    event's handler raised, if any. The host reports a raised error and
    goes on delivering events.
   */
  datatype Dispatch = Dispatch(stack: Stack, fired: seq<Handler>, raised: seq<Error>)

  /** Dispatches one pointer event to the stack's handler for it. */
  function HandlePointer(s: Stack, plot: Plot, e: PointerEvent): (r: Dispatch)
    requires plot.Valid() && Valid(s, plot)
    ensures r.raised != [] ==> e.PressEvent? && Press(s, plot, e.button).Failure?
    ensures e.PressEvent? && Press(s, plot, e.button).Failure? ==>
              r.raised == [Press(s, plot, e.button).error] && r.stack == PressRaised(s, plot, e.button)
    ensures Valid(r.stack, plot) && r.stack.handlers == s.handlers
    ensures r.fired != [] ==> r.fired == s.handlers
  {
    match e
    case PickEvent(a) => Dispatch(Pick(s, a), [], [])
    case PressEvent(b) =>
      (match Press(s, plot, b)
       case Failure(err) => Dispatch(PressRaised(s, plot, b), [], [err])
       case Success(s') => Dispatch(s', [], []))
    case MotionEvent(inAxes, x) =>
      var st := Motion(s, plot, inAxes, x);
      Dispatch(st.stack, st.fired, [])
    case ReleaseEvent =>
      var st := Release(s, plot);
      Dispatch(st.stack, st.fired, [])
  }

  /** Handles the events in order, collecting the handler calls and the errors raised. */
  function RunPointer(s: Stack, plot: Plot, es: seq<PointerEvent>): (r: Dispatch)
    requires plot.Valid() && Valid(s, plot)
    ensures Valid(r.stack, plot) && StrictlySorted(r.stack.cursors)
    ensures r.stack.handlers == s.handlers
    ensures forall h :: h in r.fired ==> h in s.handlers
    ensures (forall i :: 0 <= i < |es| ==> !es[i].PressEvent?) ==> r.raised == []
    decreases |es|
  {
    if |es| == 0 then Dispatch(s, [], [])
    else
      var d := HandlePointer(s, plot, es[0]);
      var rest := RunPointer(d.stack, plot, es[1..]);
      assert forall i :: 0 <= i < |es[1..]| ==> es[1..][i] == es[i + 1];
      Dispatch(rest.stack, d.fired + rest.fired, d.raised + rest.raised)
  }

  /** The stack after the pointer moves to each of `xs` in turn, staying inside the panes. */
  function DragTo(s: Stack, plot: Plot, xs: seq<real>): (r: Stack)
    requires plot.Valid() && Valid(s, plot) && s.state.Dragging?
    ensures Valid(r, plot) && r.state == s.state && r.handlers == s.handlers
    ensures |r.cursors| == |s.cursors|
    ensures forall j :: 0 <= j < |s.cursors| && j != s.state.pos ==> r.cursors[j] == s.cursors[j]
    ensures s.state.left <= r.cursors[s.state.pos].ind <= s.state.right
    ensures |xs| > 0 ==>
      0 <= s.state.left && s.state.right < |plot.xdata| &&
      r.cursors[s.state.pos].ind == ClosestIndex(plot.xdata, s.state.left, s.state.right, xs[|xs| - 1])
    decreases |xs|
  {
    if |xs| == 0 then s
    else
      var m := Motion(s, plot, true, xs[0]).stack;
      assert |xs| > 1 ==> xs[1..][|xs[1..]| - 1] == xs[|xs| - 1];
      DragTo(m, plot, xs[1..])
  }

  /**
    Pressing on the only cursor raises before the drag starts but leaves
    the cursor picked; the next release then calls every handler, although
    no cursor moved, and the stack is idle again.
   */
  lemma OneCursorPressThenRelease(s: Stack, plot: Plot)
    requires plot.Valid() && Valid(s, plot) && s.state.Idle?
    requires |s.cursors| == 1 && s.pickList != [] && s.pickList[TopIndex(s.pickList)].owner == 0
    ensures
      var d := RunPointer(s, plot, [PressEvent(LeftButton), ReleaseEvent]);
      && d.raised == [NoNeighbour]
      && d.fired == s.handlers
      && d.stack.cursors == s.cursors && d.stack.state == Idle
  {
    var d1 := HandlePointer(s, plot, PressEvent(LeftButton));
    assert d1.stack.state == Stuck(0);
    var es := [PressEvent(LeftButton), ReleaseEvent];
    assert es[1..] == [ReleaseEvent];
    assert es[1..][1..] == [];
  }

  /** Annotating keeps the stack invariant: texts never affect order, markers or drag bounds. */
  lemma AnnotateKeepsValid(s: Stack, plot: Plot, texts: seq<Option<string>>)
    requires plot.Valid() && Valid(s, plot) && |texts| == |s.cursors|
    ensures Annotate(s, texts).Success? && Valid(Annotate(s, texts).value, plot)
  {
    var r := Annotate(s, texts).value;
    forall i | 0 <= i < |r.cursors| ensures Placed(r.cursors[i], plot) {
      assert Placed(s.cursors[i], plot);
    }
  }

  /** With xdata strictly increasing, two cursor sequences have the same x values iff they have the same indices. */
  lemma {:induction false} XValuesInjective(a: seq<Cursor>, b: seq<Cursor>, plot: Plot)
    requires plot.Valid()
    requires forall i :: 0 <= i < |a| ==> 0 <= a[i].ind < |plot.xdata|
    requires forall i :: 0 <= i < |b| ==> 0 <= b[i].ind < |plot.xdata|
    ensures XValues(a, plot) == XValues(b, plot) <==> Indices(a) == Indices(b)
  {
    var xa, xb := XValues(a, plot), XValues(b, plot);
    var ia, ib := Indices(a), Indices(b);
    if xa == xb {
      forall i | 0 <= i < |a| ensures ia[i] == ib[i] {
        assert xa[i] == xb[i];
      }
      assert ia == ib;
    }
    if ia == ib {
      forall i | 0 <= i < |a| ensures xa[i] == xb[i] {
        assert ia[i] == ib[i];
      }
      assert xa == xb;
    }
  }

  /**
    A press that picks a cursor, any number of in-pane moves, then a release:
    the handlers are called, each once and in registration order, exactly
    when some cursor index differs from before the press; the stack ends
    idle with the handlers unchanged.
   */
  lemma PressDragRelease(s: Stack, plot: Plot, xs: seq<real>)
    requires plot.Valid() && Valid(s, plot)
    requires s.pickList != [] && |s.cursors| >= 2
    requires 0 <= s.pickList[TopIndex(s.pickList)].owner < |s.cursors|
    ensures Press(s, plot, LeftButton).Success?
    ensures
      var s1 := Press(s, plot, LeftButton).value;
      var s2 := DragTo(s1, plot, xs);
      var r := Release(s2, plot);
      && r.stack.state == Idle
      && r.stack.handlers == s.handlers && NoDuplicates(r.fired)
      && r.fired == (if Indices(s2.cursors) != Indices(s.cursors) then s.handlers else [])
  {
    var s1 := Press(s, plot, LeftButton).value;
    assert s1.state.Dragging? && s1.state.snapshot == XValues(s.cursors, plot);
    var s2 := DragTo(s1, plot, xs);
    assert s2.state == s1.state && s2.handlers == s.handlers;
    var r := DisableDragMode(s2, plot);
    assert Release(s2, plot) == r;
    assert r.fired == (if XValues(s.cursors, plot) != XValues(s2.cursors, plot) then s.handlers else []);
    PlacedIndices(s, plot);
    PlacedIndices(s2, plot);
    XValuesInjective(s2.cursors, s.cursors, plot);
  }

  /** A handler registered and then removed leaves the registrations as they were. */
  lemma AddThenRemoveHandler(hs: seq<Handler>, h: Handler)
    requires NoDuplicates(hs) && h !in hs
    ensures RemoveHandler(AddHandler(hs, h), h) == hs
  {
    RemoveFirstAppended(hs, h);
  }

  /** Registering twice is registering once; removing twice is removing once. */
  lemma HandlerRegistrationIdempotent(hs: seq<Handler>, h: Handler)
    requires NoDuplicates(hs)
    ensures AddHandler(AddHandler(hs, h), h) == AddHandler(hs, h)
    ensures RemoveHandler(RemoveHandler(hs, h), h) == RemoveHandler(hs, h)
  {
  }

  /** The stable descending sort has a single first element: the top pick is unique. */
  lemma TopPickUnique(picks: seq<Artist>, k: int)
    requires |picks| > 0 && IsTopPick(picks, k)
    ensures k == TopIndex(picks)
  {
  }

  /** The first nearest index is unique: argmin's result is the only index meeting its description. */
  lemma FirstNearestUnique(xs: seq<real>, x: real, k: int)
    requires |xs| > 0 && IsFirstNearest(xs, x, k)
    ensures k == ArgMin(xs, x)
  {
  }
}

=== FILE: scenarios.dfy ===
/** Concrete runs of the cursor stack over ten evenly spaced samples. */
module Scenarios {
  import opened Wrappers
  import opened Cursors
  import opened SnapCursorStack
  import StackProperties

  const Samples: seq<real> := [0.0, 1.0, 2.0, 3.0, 4.0, 5.0, 6.0, 7.0, 8.0, 9.0]

  /** One pane whose line plots the samples against themselves. */
  function SamplePlot(): (plot: Plot)
    ensures plot.Valid() && plot.xdata == Samples
  {
    Plot(Samples, [Samples])
  }

  /** Adding cursors at 2 and then 7 to a new stack gives the index sequence [2, 7]. */
  lemma AddScenario()
    ensures
      var plot := SamplePlot();
      var s1 := AddCursor(Empty(), plot, 2);
      && s1.Success?
      && var s2 := AddCursor(s1.value, plot, 7);
      && s2.Success? && Indices(s2.value.cursors) == [2, 7] && s2.value.state == Idle
  {
    var plot := SamplePlot();
    EmptyValid(plot);
    var s1 := AddCursor(Empty(), plot, 2).value;
    assert Indices(s1.cursors) == [2];
    var s2 := AddCursor(s1, plot, 7).value;
    assert s2.cursors[0].ind == 2 && s2.cursors[1].ind == 7;
  }

  /**
    Cursors at 2 and 7 with one handler, the line of the cursor at 2 picked:
    the press gives bounds (0, 6); the pointer at 6.9 clamps to 6, moving the
    cursor there; releasing fires the handler once. Dragging on to -3.0
    instead clamps to 0.
   */
  lemma DragScenario(s: Stack)
    requires Valid(s, SamplePlot()) && s.state == Idle && Indices(s.cursors) == [2, 7]
    requires s.handlers == [Handler(0)] && s.pickList == [Artist(2.0, 0)]
    ensures
      var plot := SamplePlot();
      var s3 := Press(s, plot, LeftButton);
      && s3.Success? && s3.value.state.Dragging?
      && s3.value.state.left == 0 && s3.value.state.right == 6
      && var m := Motion(s3.value, plot, true, 6.9);
      && Indices(m.stack.cursors) == [6, 7]
      && Release(m.stack, plot).fired == [Handler(0)]
      && Indices(Motion(m.stack, plot, true, -3.0).stack.cursors) == [0, 7]
  {
    var plot := SamplePlot();
    assert s.cursors[0].ind == 2 && s.cursors[1].ind == 7 by {
      assert Indices(s.cursors)[0] == 2 && Indices(s.cursors)[1] == 7;
    }
    assert TopIndex(s.pickList) == 0;
    var s3 := Press(s, plot, LeftButton).value;
    assert s3.state == Dragging(0, 0, 6, XValues(s.cursors, plot));
    assert ClosestIndex(Samples, 0, 6, 6.9) == 6;
    var m := Motion(s3, plot, true, 6.9);
    assert m.stack.cursors[0].ind == 6;
    assert m.stack.cursors[1] == s.cursors[1];
    assert XValues(m.stack.cursors, plot)[0] != XValues(s.cursors, plot)[0];
    assert ClosestIndex(Samples, 0, 6, -3.0) == 0;
    var m2 := Motion(m.stack, plot, true, -3.0);
    assert m2.stack.cursors[0].ind == 0;
  }

  /**
    One cursor at 5 whose line is picked, then a press with another button
    (which leaves the pick pending) and a cursor added at 2: the pick now
    belongs to the cursor at position 1, so the left press drags the cursor
    at 5 with bounds (3, 9).
   */
  lemma PickSurvivesAddScenario(s: Stack)
    requires Valid(s, SamplePlot()) && s.state == Idle && Indices(s.cursors) == [5]
    requires s.pickList == [Artist(2.0, 0)]
    ensures
      var plot := SamplePlot();
      var s1 := Press(s, plot, RightButton);
      && s1 == Success(s)
      && var s2 := AddCursor(s1.value, plot, 2);
      && s2.Success? && Indices(s2.value.cursors) == [2, 5]
      && var s3 := Press(s2.value, plot, LeftButton);
      && s3.Success? && s3.value.state.Dragging? && s3.value.state.pos == 1
      && s3.value.cursors[1].ind == 5
      && s3.value.state.left == 3 && s3.value.state.right == 9
  {
    var plot := SamplePlot();
    assert s.cursors[0].ind == 5 by {
      assert Indices(s.cursors)[0] == 5;
    }
    var s2 := AddCursor(s, plot, 2).value;
    assert s2.cursors[0].ind == 2 && s2.cursors[1] == s.cursors[0];
    assert s2.pickList[0].owner == 1;
    assert TopIndex(s2.pickList) == 0;
  }

  /**
    Cursors at 2 and 8, the cursor at 8 being dragged with bounds (3, 9): a
    cursor added at 6 goes before it, but the bounds are not recomputed, so
    the stack breaks its invariant and the next snap, for the pointer at
    4.0, is index 4, to the left of the new cursor.
   */
  lemma AddDuringDragScenario(s: Stack)
    requires Valid(s, SamplePlot()) && Indices(s.cursors) == [2, 8]
    requires s.state.Dragging? && s.state.pos == 1
    ensures
      var plot := SamplePlot();
      var r := AddCursor(s, plot, 6);
      && r.Success? && Indices(r.value.cursors) == [2, 6, 8]
      && r.value.state.Dragging? && r.value.state.pos == 2
      && r.value.state.left == 3 && r.value.state.right == 9
      && !Valid(r.value, plot)
      && ClosestIndex(plot.xdata, r.value.state.left, r.value.state.right, 4.0) == 4
      && 4 < r.value.cursors[1].ind
  {
    var plot := SamplePlot();
    assert s.cursors[0].ind == 2 && s.cursors[1].ind == 8 by {
      assert Indices(s.cursors)[0] == 2 && Indices(s.cursors)[1] == 8;
    }
    var r := AddCursor(s, plot, 6).value;
    assert r.cursors[0] == s.cursors[0] && r.cursors[2] == s.cursors[1];
    assert r.cursors[1].ind == 6;
    assert !BoundsOf(r.cursors, |plot.xdata|, 2, 3, 9);
    StackProperties.FirstNearestUnique(Samples, 4.0, 4);
  }

  /** A second cursor at an occupied index is refused and the stack keeps one cursor. */
  lemma DuplicateScenario()
    ensures
      var plot := SamplePlot();
      var s1 := AddCursor(Empty(), plot, 3);
      && s1.Success? && |s1.value.cursors| == 1
      && AddCursor(s1.value, plot, 3) == Failure(DuplicateIndex)
  {
    var plot := SamplePlot();
    var s1 := AddCursor(Empty(), plot, 3).value;
    assert Indices(s1.cursors) == [3];
  }

  /** Inside the bounds the pointer snaps to the nearest sample; at an exact midpoint the lower one wins. */
  lemma SnapScenario()
    ensures ClosestIndex(Samples, 0, 9, 4.4) == 4
    ensures ClosestIndex(Samples, 0, 9, 4.5) == 4
    ensures ClosestIndex(Samples, 0, 9, 4.6) == 5
    ensures ClosestIndex(Samples, 3, 6, 9.5) == 6
  {
    StackProperties.FirstNearestUnique(Samples, 4.4, 4);
    StackProperties.FirstNearestUnique(Samples, 4.5, 4);
    StackProperties.FirstNearestUnique(Samples, 4.6, 5);
  }
}

=== FILE: stack.dfy ===
/**
  The cursor stack: a sequence of cursors kept sorted by data index, the
  registered "cursors moved" handlers, the artists picked since the last
  press, and the pick/drag/snap state machine.
 */
module SnapCursorStack {
  import opened Wrappers
  import opened Cursors

  /** Errors raised by the stack's operations. */
  datatype Error =
    | NegativeIndex        // add_cursor: "xdata_ind must be non-negative"
    | DuplicateIndex       // add_cursor: "There is already cursor with same xdata_ind"
    | IndexOutOfRange      // the new cursor raised IndexError reading past the end of xdata
    | ConstructorArity     // TypeError from calling Cursor with one positional argument too many
    | TextCountMismatch    // annotate: "Number of texts must be same as number of cursors"
    | NoPickedCursor       // the picked artist belongs to no cursor and none was picked before
    | NoNeighbour          // IndexError reading the neighbour of the only cursor

  /** The pointer button of a press event. */
  datatype Button = LeftButton | MiddleButton | RightButton | OtherButton

  /**
    An artist reported by a pick event: its draw order and the position, in
    the cursor sequence, of the cursor owning it (any other value when the
    artist is not one of the cursors' lines).
   */
  datatype Artist = Artist(zorder: real, owner: int)

  /** A "cursors moved" handler, compared by identity. */
  datatype Handler = Handler(id: nat)

  /**
    Idle; dragging the cursor at position `pos` inside the inclusive index
    range [left, right], with the cursor x values taken at the press; or
    stuck: the press picked the cursor at `pos` and then raised before the
    drag began, leaving no snapshot and no drag handler connected.
   */
  datatype DragState =
    | Idle
    | Dragging(pos: nat, left: int, right: int, snapshot: seq<real>)
    | Stuck(pos: nat)

  datatype Stack = Stack(cursors: seq<Cursor>, handlers: seq<Handler>, pickList: seq<Artist>, state: DragState)

  /** The stack after an event, and the handlers called while handling it, in call order. */
  datatype Step = Step(stack: Stack, fired: seq<Handler>)

  /** The inclusive index range a dragged cursor may take. */
  datatype Bounds = Bounds(left: int, right: int)

  ghost predicate StrictlySorted(cs: seq<Cursor>) {
    forall i, j :: 0 <= i < j < |cs| ==> cs[i].ind < cs[j].ind
  }

  /** Sorted for `<` in the sense `insort` relies on: no later cursor is less than an earlier one. */
  ghost predicate SortedByLt(cs: seq<Cursor>) {
    forall i, j :: 0 <= i < j < |cs| ==> !Lt(cs[j], cs[i])
  }

  ghost predicate NoDuplicates<T>(xs: seq<T>) {
    forall i, j :: 0 <= i < j < |xs| ==> xs[i] != xs[j]
  }

  /** The drag bounds of the cursor at `pos`: from just after its left neighbour to just before its right one. */
  ghost predicate BoundsOf(cs: seq<Cursor>, n: int, pos: nat, left: int, right: int)
    requires pos < |cs|
  {
    && left == (if pos == 0 then 0 else cs[pos - 1].ind + 1)
    && right == (if pos == |cs| - 1 then n - 1 else cs[pos + 1].ind - 1)
  }

  /**
    The representation invariant: every cursor placed, the cursors strictly
    sorted by index, no handler registered twice, while dragging at least
    two cursors and bounds that match the picked cursor's neighbours, and
    a picked cursor that exists.
   */
  ghost predicate Valid(s: Stack, plot: Plot)
    requires plot.Valid()
  {
    && (forall i :: 0 <= i < |s.cursors| ==> Placed(s.cursors[i], plot))
    && StrictlySorted(s.cursors)
    && NoDuplicates(s.handlers)
    && (s.state.Dragging? ==>
          && 2 <= |s.cursors|
          && s.state.pos < |s.cursors|
          && BoundsOf(s.cursors, |plot.xdata|, s.state.pos, s.state.left, s.state.right))
    && (s.state.Stuck? ==> s.state.pos < |s.cursors|)
  }

  /** Every cursor of a valid stack holds an index inside the x data. */
  lemma PlacedIndices(s: Stack, plot: Plot)
    requires plot.Valid() && Valid(s, plot)
    ensures forall i :: 0 <= i < |s.cursors| ==> 0 <= s.cursors[i].ind < |plot.xdata|
  {
    forall i | 0 <= i < |s.cursors| ensures 0 <= s.cursors[i].ind < |plot.xdata| {
      assert Placed(s.cursors[i], plot);
    }
  }

  /** A freshly constructed stack: no cursors, no handlers, nothing picked. */
  function Empty(): (s: Stack)
    ensures s.cursors == [] && s.handlers == [] && s.pickList == [] && s.state == Idle
  {
    Stack([], [], [], Idle)
  }

  lemma EmptyValid(plot: Plot)
    requires plot.Valid()
    ensures Valid(Empty(), plot)
  {
  }

  // ---------------------------------------------------------------- accessors

  /** get_cursor_xdata_inds: the cursors' indices, in stack order. */
  function Indices(cs: seq<Cursor>): (r: seq<int>)
    ensures |r| == |cs|
    ensures forall i :: 0 <= i < |cs| ==> r[i] == GetXDataInd(cs[i])
  {
    seq(|cs|, i requires 0 <= i < |cs| => cs[i].ind)
  }

  /** get_cursor_xdata: the cursors' x values, in stack order. */
  function XValues(cs: seq<Cursor>, plot: Plot): (r: seq<real>)
    requires forall i :: 0 <= i < |cs| ==> 0 <= cs[i].ind < |plot.xdata|
    ensures |r| == |cs|
    ensures forall i :: 0 <= i < |cs| ==> r[i] == GetXData(cs[i], plot)
  {
    seq(|cs|, i requires 0 <= i < |cs| => plot.xdata[cs[i].ind])
  }

  // ----------------------------------------------------------------- handlers

  /** Registers a handler unless it is already registered. */
  function AddHandler(hs: seq<Handler>, h: Handler): (r: seq<Handler>)
    ensures h in r
    ensures h in hs ==> r == hs
    ensures h !in hs ==> r == hs + [h]
    ensures NoDuplicates(hs) ==> NoDuplicates(r)
  {
    if h in hs then hs else hs + [h]
  }

  /** Removes the first occurrence of `h`, or nothing when `h` is absent (list.remove). */
  function RemoveFirst(hs: seq<Handler>, h: Handler): (r: seq<Handler>)
    ensures h !in hs ==> r == hs
    ensures h in hs ==> |r| == |hs| - 1
    ensures forall g :: g in r ==> g in hs
    ensures forall g :: g in hs && g != h ==> g in r
  {
    if |hs| == 0 then hs
    else if hs[0] == h then hs[1..]
    else [hs[0]] + RemoveFirst(hs[1..], h)
  }

  /** `RemoveFirst` cuts out the first occurrence of `h` and keeps the order of the rest. */
  lemma {:induction false} RemoveFirstAt(hs: seq<Handler>, h: Handler, i: nat)
    requires i < |hs| && hs[i] == h && h !in hs[..i]
    ensures RemoveFirst(hs, h) == hs[..i] + hs[i + 1..]
  {
    if i > 0 {
      assert hs[0] in hs[..i];
      assert hs[1..][..i - 1] == hs[1..i];
      RemoveFirstAt(hs[1..], h, i - 1);
      assert hs[..i] == [hs[0]] + hs[1..i];
      assert hs[1..][i..] == hs[i + 1..];
    }
  }

  /** Removing a handler that was appended last, and only there, restores the list. */
  lemma {:induction false} RemoveFirstAppended(hs: seq<Handler>, h: Handler)
    requires h !in hs
    ensures RemoveFirst(hs + [h], h) == hs
  {
    if |hs| > 0 {
      assert (hs + [h])[1..] == hs[1..] + [h];
      RemoveFirstAppended(hs[1..], h);
    }
  }

  /** Without duplicates, removing a registered handler splits the list around it. */
  lemma RemoveFirstSplits(hs: seq<Handler>, h: Handler)
    requires NoDuplicates(hs) && h in hs
    ensures exists i :: 0 <= i < |hs| && hs[i] == h && RemoveFirst(hs, h) == hs[..i] + hs[i + 1..]
  {
    var i :| 0 <= i < |hs| && hs[i] == h;
    assert h !in hs[..i];
    RemoveFirstAt(hs, h, i);
  }

  /** Unregisters a handler; nothing happens when it is not registered, and the others keep their order. */
  function RemoveHandler(hs: seq<Handler>, h: Handler): (r: seq<Handler>)
    requires NoDuplicates(hs)
    ensures h !in r && NoDuplicates(r)
    ensures h !in hs ==> r == hs
    ensures forall g :: g in r <==> g in hs && g != h
    ensures h in hs ==> exists i :: 0 <= i < |hs| && hs[i] == h && r == hs[..i] + hs[i + 1..]
  {
    if h in hs then
      RemoveFirstNoDuplicates(hs, h);
      RemoveFirstSplits(hs, h);
      RemoveFirst(hs, h)
    else hs
  }

  lemma {:induction false} RemoveFirstNoDuplicates(hs: seq<Handler>, h: Handler)
    requires NoDuplicates(hs)
    ensures NoDuplicates(RemoveFirst(hs, h)) && h !in RemoveFirst(hs, h)
  {
    if |hs| > 0 && hs[0] != h {
      RemoveFirstNoDuplicates(hs[1..], h);
      var t := RemoveFirst(hs[1..], h);
      assert hs[0] !in hs[1..];
      assert hs[0] !in t;
      var r := [hs[0]] + t;
      forall i, j | 0 <= i < j < |r| ensures r[i] != r[j] {
        if i == 0 { assert r[j] in t; }
      }
    } else if |hs| > 0 {
      assert hs[0] !in hs[1..];
    }
  }

  // ----------------------------------------------------------------- annotate

  /** annotate: exactly one text per cursor, applied to the cursor at the same position. */
  function Annotate(s: Stack, texts: seq<Option<string>>): (r: Result<Stack, Error>)
    ensures r.Failure? <==> |texts| != |s.cursors|
    ensures r.Failure? ==> r.error == TextCountMismatch
    ensures r.Success? ==>
      && |r.value.cursors| == |s.cursors|
      && (forall i :: 0 <= i < |s.cursors| ==>
            r.value.cursors[i] == s.cursors[i].(text := texts[i]))
      && r.value.handlers == s.handlers && r.value.pickList == s.pickList
      && r.value.state == s.state
  {
    if |texts| != |s.cursors| then Failure(TextCountMismatch)
    else
      Success(s.(cursors := seq(|s.cursors|, i requires 0 <= i < |s.cursors| =>
                                  s.cursors[i].(text := texts[i]))))
  }

  // ---------------------------------------------------------- sorted insertion

  /**
    bisect_right over positions lo..hi: the first position whose cursor is
    greater than `c`, comparing only with `<`.
   */
  function BisectRight(a: seq<Cursor>, c: Cursor, lo: nat, hi: nat): (r: nat)
    requires lo <= hi <= |a| && SortedByLt(a)
    requires forall j :: 0 <= j < lo ==> !Lt(c, a[j])
    requires forall j :: hi <= j < |a| ==> Lt(c, a[j])
    ensures lo <= r <= hi
    ensures forall j :: 0 <= j < r ==> !Lt(c, a[j])
    ensures forall j :: r <= j < |a| ==> Lt(c, a[j])
    decreases hi - lo
  {
    if lo >= hi then lo
    else
      var mid := (lo + hi) / 2;
      if Lt(c, a[mid]) then BisectRight(a, c, lo, mid)
      else BisectRight(a, c, mid + 1, hi)
  }

  /** insort: `c` inserted after every cursor it is not less than. */
  function Insort(a: seq<Cursor>, c: Cursor): (r: seq<Cursor>)
    requires SortedByLt(a)
    ensures |r| == |a| + 1
    ensures multiset(r) == multiset(a) + multiset{c}
    ensures SortedByLt(r)
    ensures StrictlySorted(a) && (forall j :: 0 <= j < |a| ==> a[j].ind != c.ind) ==> StrictlySorted(r)
  {
    var k := BisectRight(a, c, 0, |a|);
    InsertAtSplit(a, c, k);
    a[..k] + [c] + a[k..]
  }

  /** Inserting `c` at the split position bisect_right found keeps the order and adds exactly `c`. */
  lemma InsertAtSplit(a: seq<Cursor>, c: Cursor, k: nat)
    requires k <= |a| && SortedByLt(a)
    requires forall j :: 0 <= j < k ==> !Lt(c, a[j])
    requires forall j :: k <= j < |a| ==> Lt(c, a[j])
    ensures multiset(a[..k] + [c] + a[k..]) == multiset(a) + multiset{c}
    ensures SortedByLt(a[..k] + [c] + a[k..])
    ensures StrictlySorted(a) && (forall j :: 0 <= j < |a| ==> a[j].ind != c.ind) ==>
              StrictlySorted(a[..k] + [c] + a[k..])
  {
    var r := a[..k] + [c] + a[k..];
    assert a[..k] + a[k..] == a;
    forall i, j | 0 <= i < j < |r| ensures !Lt(r[j], r[i]) {
      InsertedAt(a, c, k, i);
      InsertedAt(a, c, k, j);
    }
    if StrictlySorted(a) && (forall j :: 0 <= j < |a| ==> a[j].ind != c.ind) {
      forall i, j | 0 <= i < j < |r| ensures r[i].ind < r[j].ind {
        InsertedAt(a, c, k, i);
        InsertedAt(a, c, k, j);
      }
    }
  }

  /** The element at position `j` after inserting `c` at `k`. */
  lemma InsertedAt(a: seq<Cursor>, c: Cursor, k: nat, j: nat)
    requires k <= |a| && j <= |a|
    ensures (a[..k] + [c] + a[k..])[j] == if j < k then a[j] else if j == k then c else a[j - 1]
  {
  }

  /** Where the cursor at position `p` ends up once a cursor is inserted at position `k`. */
  function Shift(k: nat, p: nat): nat {
    if k <= p then p + 1 else p
  }

  /** After insort, every old cursor is found at its shifted position. */
  lemma InsortKeepsCursors(a: seq<Cursor>, c: Cursor)
    requires SortedByLt(a)
    ensures forall p :: 0 <= p < |a| ==>
      Shift(BisectRight(a, c, 0, |a|), p) < |Insort(a, c)| && Insort(a, c)[Shift(BisectRight(a, c, 0, |a|), p)] == a[p]
  {
    var k := BisectRight(a, c, 0, |a|);
    forall p | 0 <= p < |a| ensures Shift(k, p) < |Insort(a, c)| && Insort(a, c)[Shift(k, p)] == a[p] {
      InsertedAt(a, c, k, Shift(k, p));
    }
  }

  /**
    The pick list once a cursor is inserted at position `k` among `n`: a
    picked line still belongs to the same cursor, now at its shifted
    position; a line of no cursor still belongs to none.
   */
  function RetargetPicks(picks: seq<Artist>, k: nat, n: nat): (r: seq<Artist>)
    ensures |r| == |picks|
    ensures forall j :: 0 <= j < |picks| ==> r[j].zorder == picks[j].zorder
    ensures forall j :: 0 <= j < |picks| && 0 <= picks[j].owner < n ==> r[j].owner == Shift(k, picks[j].owner)
    ensures forall j :: 0 <= j < |picks| && !(0 <= picks[j].owner < n) ==> r[j].owner == -1
  {
    seq(|picks|, j requires 0 <= j < |picks| =>
      if 0 <= picks[j].owner < n then picks[j].(owner := Shift(k, picks[j].owner))
      else picks[j].(owner := -1))
  }

  /**
    add_cursor as intended: reject a negative index, then an index some
    cursor already holds, then (constructing the cursor) an index past the
    end of xdata; otherwise insert the new cursor in sorted position.
    The picked cursor and the cursors owning the pending picks keep their
    identity, so their positions shift when the new cursor goes before them.
   */
  function AddCursor(s: Stack, plot: Plot, i: int): (r: Result<Stack, Error>)
    requires plot.Valid() && SortedByLt(s.cursors)
    ensures i < 0 ==> r == Failure(NegativeIndex)
    ensures 0 <= i && i in Indices(s.cursors) ==> r == Failure(DuplicateIndex)
    ensures 0 <= i && i !in Indices(s.cursors) && i >= |plot.xdata| ==> r == Failure(IndexOutOfRange)
    ensures r.Success? <==> 0 <= i < |plot.xdata| && i !in Indices(s.cursors)
    ensures r.Success? ==>
      && |r.value.cursors| == |s.cursors| + 1
      && multiset(r.value.cursors) == multiset(s.cursors) + multiset{Create(plot, i).value}
      && r.value.handlers == s.handlers
      && r.value.state.Idle? == s.state.Idle? && r.value.state.Stuck? == s.state.Stuck?
    ensures r.Success? && !s.state.Idle? && s.state.pos < |s.cursors| ==>
      && r.value.state.pos < |r.value.cursors|
      && r.value.cursors[r.value.state.pos] == s.cursors[s.state.pos]
      && (s.state.Dragging? ==> r.value.state == s.state.(pos := r.value.state.pos))
    ensures r.Success? ==>
      && |r.value.pickList| == |s.pickList|
      && (forall j :: 0 <= j < |s.pickList| ==> r.value.pickList[j].zorder == s.pickList[j].zorder)
      && (forall j :: 0 <= j < |s.pickList| && 0 <= s.pickList[j].owner < |s.cursors| ==>
            && 0 <= r.value.pickList[j].owner < |r.value.cursors|
            && r.value.cursors[r.value.pickList[j].owner] == s.cursors[s.pickList[j].owner])
      && (forall j :: 0 <= j < |s.pickList| && !(0 <= s.pickList[j].owner < |s.cursors|) ==>
            !(0 <= r.value.pickList[j].owner < |r.value.cursors|))
    ensures r.Success? && StrictlySorted(s.cursors) ==> StrictlySorted(r.value.cursors)
    ensures r.Success? && !s.state.Dragging? && Valid(s, plot) ==> Valid(r.value, plot)
  {
    if i < 0 then Failure(NegativeIndex)
    else if i in Indices(s.cursors) then Failure(DuplicateIndex)
    else match Create(plot, i)
      case Failure(_) => Failure(IndexOutOfRange)
      case Success(c) =>
        FreshIndex(s.cursors, i);
        Success(InsertCursor(s, plot, c))
  }

  /**
    Inserts a cursor at a fresh index in sorted position (bisect.insort),
    carrying the picked cursor and the owners of the pending picks along to
    their shifted positions.
   */
  function InsertCursor(s: Stack, plot: Plot, c: Cursor): (r: Stack)
    requires plot.Valid() && SortedByLt(s.cursors) && Placed(c, plot)
    requires forall j :: 0 <= j < |s.cursors| ==> s.cursors[j].ind != c.ind
    ensures |r.cursors| == |s.cursors| + 1
    ensures multiset(r.cursors) == multiset(s.cursors) + multiset{c}
    ensures r.handlers == s.handlers
    ensures r.state.Idle? == s.state.Idle? && r.state.Stuck? == s.state.Stuck?
    ensures !s.state.Idle? && s.state.pos < |s.cursors| ==>
      && r.state.pos < |r.cursors|
      && r.cursors[r.state.pos] == s.cursors[s.state.pos]
      && (s.state.Dragging? ==> r.state == s.state.(pos := r.state.pos))
    ensures |r.pickList| == |s.pickList|
    ensures forall j :: 0 <= j < |s.pickList| ==> r.pickList[j].zorder == s.pickList[j].zorder
    ensures forall j :: 0 <= j < |s.pickList| && 0 <= s.pickList[j].owner < |s.cursors| ==>
      && 0 <= r.pickList[j].owner < |r.cursors|
      && r.cursors[r.pickList[j].owner] == s.cursors[s.pickList[j].owner]
    ensures forall j :: 0 <= j < |s.pickList| && !(0 <= s.pickList[j].owner < |s.cursors|) ==>
      !(0 <= r.pickList[j].owner < |r.cursors|)
    ensures StrictlySorted(s.cursors) ==> StrictlySorted(r.cursors)
    ensures !s.state.Dragging? && Valid(s, plot) ==> Valid(r, plot)
  {
    var k := BisectRight(s.cursors, c, 0, |s.cursors|);
    var cs := Insort(s.cursors, c);
    InsortKeepsCursors(s.cursors, c);
    var st := match s.state
      case Idle => Idle
      case Dragging(p, l, rt, snap) => Dragging(Shift(k, p), l, rt, snap)
      case Stuck(p) => Stuck(Shift(k, p));
    var r := s.(cursors := cs, pickList := RetargetPicks(s.pickList, k, |s.cursors|), state := st);
    assert Valid(s, plot) && !s.state.Dragging? ==> Valid(r, plot) by {
      if Valid(s, plot) && !s.state.Dragging? {
        InsortPlaced(s.cursors, c, plot);
      }
    }
    r
  }

  /** An index outside `Indices(cs)` differs from every cursor's index. */
  lemma FreshIndex(cs: seq<Cursor>, i: int)
    requires i !in Indices(cs)
    ensures forall j :: 0 <= j < |cs| ==> cs[j].ind != i
  {
    forall j | 0 <= j < |cs| ensures cs[j].ind != i {
      assert Indices(cs)[j] == cs[j].ind;
    }
  }

  /** Inserting a placed cursor among placed cursors leaves every cursor placed. */
  lemma InsortPlaced(a: seq<Cursor>, c: Cursor, plot: Plot)
    requires plot.Valid() && SortedByLt(a) && Placed(c, plot)
    requires forall j :: 0 <= j < |a| ==> Placed(a[j], plot)
    ensures forall j :: 0 <= j < |Insort(a, c)| ==> Placed(Insort(a, c)[j], plot)
  {
    var cs := Insort(a, c);
    forall j | 0 <= j < |cs| ensures Placed(cs[j], plot) {
      assert cs[j] in multiset(cs);
      if cs[j] != c {
        assert cs[j] in multiset(a);
        var m :| 0 <= m < |a| && a[m] == cs[j];
      }
    }
  }

  /**
    add_cursor as written: after validation it calls the Cursor constructor
    with four positional arguments where it accepts three, which raises
    TypeError before anything is inserted.
   */
  function AddCursorAsWritten(s: Stack, plot: Plot, i: int): (r: Result<Stack, Error>)
    requires plot.Valid()
    ensures r.Failure?
    ensures i < 0 ==> r.error == NegativeIndex
    ensures 0 <= i && i in Indices(s.cursors) ==> r.error == DuplicateIndex
    ensures 0 <= i && i !in Indices(s.cursors) ==> r.error == ConstructorArity
  {
    if i < 0 then Failure(NegativeIndex)
    else if i in Indices(s.cursors) then Failure(DuplicateIndex)
    else Failure(ConstructorArity)
  }

  /** Every index the intended add_cursor accepts is refused by the one as written. */
  lemma AddCursorArityDiscrepancy(s: Stack, plot: Plot, i: int)
    requires plot.Valid() && SortedByLt(s.cursors)
    requires 0 <= i < |plot.xdata| && i !in Indices(s.cursors)
    ensures AddCursor(s, plot, i).Success?
    ensures AddCursorAsWritten(s, plot, i) == Failure(ConstructorArity)
  {
  }

  // ------------------------------------------------------------- pick / press

  /** pick_event: the picked artist is appended to the pick list. */
  function Pick(s: Stack, a: Artist): (r: Stack)
    ensures r.pickList == s.pickList + [a]
    ensures r.cursors == s.cursors && r.handlers == s.handlers && r.state == s.state
  {
    s.(pickList := s.pickList + [a])
  }

  /** `k` is where a stable sort by descending z-order puts its first element. */
  ghost predicate IsTopPick(picks: seq<Artist>, k: int) {
    && 0 <= k < |picks|
    && (forall j :: 0 <= j < |picks| ==> picks[j].zorder <= picks[k].zorder)
    && (forall j :: 0 <= j < k ==> picks[j].zorder < picks[k].zorder)
  }

  /** The artist the press picks: highest z-order, the earliest picked among equals. */
  function TopIndex(picks: seq<Artist>): (k: nat)
    requires |picks| > 0
    ensures IsTopPick(picks, k)
  {
    if |picks| == 1 then 0
    else
      var k := TopIndex(picks[..|picks| - 1]);
      if picks[|picks| - 1].zorder > picks[k].zorder then |picks| - 1 else k
  }

  /** __calculate_xdata_move_range for the cursor at position `p`, over `n` x values. */
  function MoveRange(cs: seq<Cursor>, n: int, p: nat): (r: Result<Bounds, Error>)
    requires p < |cs|
    ensures r.Failure? <==> |cs| == 1
    ensures r.Failure? ==> r.error == NoNeighbour
    ensures r.Success? ==> BoundsOf(cs, n, p, r.value.left, r.value.right)
    ensures r.Success? && StrictlySorted(cs) && (forall j :: 0 <= j < |cs| ==> 0 <= cs[j].ind < n) ==>
      && 0 <= r.value.left <= cs[p].ind <= r.value.right < n
      && (forall j :: 0 <= j < |cs| && j != p ==> !(r.value.left <= cs[j].ind <= r.value.right))
  {
    if p == 0 then
      if |cs| < 2 then Failure(NoNeighbour)
      else Success(Bounds(0, cs[p + 1].ind - 1))
    else if p == |cs| - 1 then
      Success(Bounds(cs[p - 1].ind + 1, n - 1))
    else
      Success(Bounds(cs[p - 1].ind + 1, cs[p + 1].ind - 1))
  }

  /**
    __handle_button_press_event: ignored unless the left button is pressed
    with artists picked. Otherwise the top artist is chosen and the pick list
    emptied; the artist's owner becomes the picked cursor (a previously picked
    cursor stays picked when the artist has no owner), its bounds are computed
    and the cursors' x values are recorded. `PressRaised` gives the stack an
    exception leaves behind.
   */
  function Press(s: Stack, plot: Plot, b: Button): (r: Result<Stack, Error>)
    requires plot.Valid() && Valid(s, plot)
    ensures b != LeftButton || s.pickList == [] ==> r == Success(s)
    ensures r.Failure? <==>
      && b == LeftButton && s.pickList != []
      && (var owner := s.pickList[TopIndex(s.pickList)].owner;
          if 0 <= owner < |s.cursors| || !s.state.Idle? then |s.cursors| == 1 else true)
    ensures r.Success? && b == LeftButton && s.pickList != [] ==>
      && r.value.pickList == []
      && r.value.cursors == s.cursors && r.value.handlers == s.handlers
      && r.value.state.Dragging?
      && r.value.state.snapshot == XValues(s.cursors, plot)
      && (var owner := s.pickList[TopIndex(s.pickList)].owner;
          r.value.state.pos == if 0 <= owner < |s.cursors| then owner else s.state.pos)
    ensures r.Success? ==> Valid(r.value, plot)
  {
    if b != LeftButton || |s.pickList| == 0 then Success(s)
    else
      var top := s.pickList[TopIndex(s.pickList)];
      var picked: Option<nat> :=
        if 0 <= top.owner < |s.cursors| then Some(top.owner)
        else if !s.state.Idle? then Some(s.state.pos)
        else None;
      match picked
      case None => Failure(NoPickedCursor)
      case Some(p) =>
        match MoveRange(s.cursors, |plot.xdata|, p)
        case Failure(e) => Failure(e)
        case Success(bd) =>
          Success(s.(pickList := [],
                     state := Dragging(p, bd.left, bd.right, XValues(s.cursors, plot))))
  }

  /**
    The stack a raising press leaves behind: the pick list is already
    emptied, and when the picked cursor was found but has no neighbour it is
    already recorded as picked, with no snapshot and no drag handler.
   */
  function PressRaised(s: Stack, plot: Plot, b: Button): (r: Stack)
    requires plot.Valid() && Valid(s, plot) && Press(s, plot, b).Failure?
    ensures r.pickList == [] && r.cursors == s.cursors && r.handlers == s.handlers
    ensures Press(s, plot, b).error == NoNeighbour ==> r.state == Stuck(0)
    ensures Press(s, plot, b).error == NoPickedCursor ==> r.state == s.state == Idle
    ensures Valid(r, plot)
  {
    if Press(s, plot, b).error == NoNeighbour then s.(pickList := [], state := Stuck(0))
    else s.(pickList := [])
  }

  // ------------------------------------------------------------------ snapping

  /** The distance between two x values. */
  function Dist(a: real, b: real): (r: real)
    ensures r >= 0.0 && a - b <= r && b - a <= r
    ensures r == 0.0 <==> a == b
  {
    if a >= b then a - b else b - a
  }

  /** The distance is the absolute difference. */
  lemma DistIsAbs(a: real, b: real)
    ensures Dist(a, b) == a - b || Dist(a, b) == b - a
  {
  }

  /** `k` is the first index of `xs` nearest to `x`. */
  ghost predicate IsFirstNearest(xs: seq<real>, x: real, k: int) {
    && 0 <= k < |xs|
    && (forall j :: 0 <= j < |xs| ==> Dist(xs[k], x) <= Dist(xs[j], x))
    && (forall j :: 0 <= j < k ==> Dist(xs[k], x) < Dist(xs[j], x))
  }

  /** argmin of |xs[i] - x|: the first index at the least distance. */
  function ArgMin(xs: seq<real>, x: real): (k: nat)
    requires |xs| > 0
    ensures IsFirstNearest(xs, x, k)
  {
    if |xs| == 1 then 0
    else
      var k := ArgMin(xs[..|xs| - 1], x);
      if Dist(xs[|xs| - 1], x) < Dist(xs[k], x) then |xs| - 1 else k
  }

  /**
    __get_closest_xdata_ind: `left` when the pointer is left of xdata[left],
    `right` when it is right of xdata[right], and otherwise the nearest
    index over the WHOLE of xdata. With xdata strictly increasing that index
    is already inside [left, right].
   */
  function ClosestIndex(xdata: seq<real>, left: int, right: int, x: real): (r: int)
    requires 0 <= left < |xdata| && 0 <= right < |xdata|
    ensures x < xdata[left] ==> r == left
    ensures xdata[left] <= x && xdata[right] < x ==> r == right
    ensures xdata[left] <= x <= xdata[right] ==> IsFirstNearest(xdata, x, r)
    ensures StrictlyIncreasing(xdata) && left <= right ==> left <= r <= right
  {
    if x < xdata[left] then left
    else if x > xdata[right] then right
    else
      var k := ArgMin(xdata, x);
      assert StrictlyIncreasing(xdata) && left <= right ==> left <= k <= right;
      k
  }

  // --------------------------------------------------------------- drag / end

  /**
    __disable_drag_mode: every handler is called, in registration order,
    exactly when the cursor x values differ from those recorded at the
    press. After a press that raised there is no record, and `None` differs
    from every list, so every handler is called. The stack then returns to
    idle.
   */
  function DisableDragMode(s: Stack, plot: Plot): (r: Step)
    requires plot.Valid() && Valid(s, plot) && !s.state.Idle?
    ensures r.stack == s.(state := Idle)
    ensures s.state.Dragging? ==>
      r.fired == (if s.state.snapshot != XValues(s.cursors, plot) then s.handlers else [])
    ensures s.state.Stuck? ==> r.fired == s.handlers
    ensures Valid(r.stack, plot)
  {
    var fired := if s.state.Stuck? || s.state.snapshot != XValues(s.cursors, plot) then s.handlers else [];
    Step(s.(state := Idle), fired)
  }

  /** button_release_event: ends a drag (or a press that raised); nothing happens when idle. */
  function Release(s: Stack, plot: Plot): (r: Step)
    requires plot.Valid() && Valid(s, plot)
    ensures s.state.Idle? ==> r == Step(s, [])
    ensures r.stack.state.Idle? && r.stack.cursors == s.cursors && r.stack.handlers == s.handlers
    ensures Valid(r.stack, plot)
  {
    if s.state.Idle? then Step(s, []) else DisableDragMode(s, plot)
  }

  /** While dragging, the bounds lie inside the x data and around the picked cursor. */
  lemma DragBoundsInRange(s: Stack, plot: Plot)
    requires plot.Valid() && Valid(s, plot) && s.state.Dragging?
    ensures 0 <= s.state.left <= s.cursors[s.state.pos].ind <= s.state.right < |plot.xdata|
  {
    var p := s.state.pos;
    assert Placed(s.cursors[p], plot);
    if p > 0 { assert Placed(s.cursors[p - 1], plot); }
    if p < |s.cursors| - 1 { assert Placed(s.cursors[p + 1], plot); }
  }

  /** Moving the picked cursor to any index within its bounds keeps the stack valid. */
  lemma DragStepKeepsValid(s: Stack, plot: Plot, v: int)
    requires plot.Valid() && Valid(s, plot) && s.state.Dragging?
    requires s.state.left <= v <= s.state.right && 0 <= v < |plot.xdata|
    ensures Valid(s.(cursors := s.cursors[s.state.pos := SetXDataInd(s.cursors[s.state.pos], plot, v)]), plot)
  {
    var p := s.state.pos;
    var cs := s.cursors[p := SetXDataInd(s.cursors[p], plot, v)];
    forall i, j | 0 <= i < j < |cs| ensures cs[i].ind < cs[j].ind {
      if i == p {
        assert s.cursors[p + 1].ind <= s.cursors[j].ind;
      } else if j == p {
        assert s.cursors[i].ind <= s.cursors[p - 1].ind;
      }
    }
  }

  /**
    A pointer move. Unless a drag is in progress it only concerns hover
    feedback and changes nothing here. While dragging, leaving the panes
    ends the drag; otherwise the picked cursor moves to the snapped index
    for the pointer's x within its bounds and no other cursor moves.
   */
  function Motion(s: Stack, plot: Plot, inAxes: bool, x: real): (r: Step)
    requires plot.Valid() && Valid(s, plot)
    ensures !s.state.Dragging? ==> r == Step(s, [])
    ensures s.state.Dragging? && !inAxes ==> r == DisableDragMode(s, plot)
    ensures s.state.Dragging? && inAxes ==>
      && r.fired == []
      && r.stack.state == s.state && r.stack.handlers == s.handlers
      && r.stack.pickList == s.pickList
      && |r.stack.cursors| == |s.cursors|
      && 0 <= s.state.left && s.state.right < |plot.xdata|
      && r.stack.cursors[s.state.pos]
         == SetXDataInd(s.cursors[s.state.pos], plot, ClosestIndex(plot.xdata, s.state.left, s.state.right, x))
      && s.state.left <= r.stack.cursors[s.state.pos].ind <= s.state.right
      && (forall j :: 0 <= j < |s.cursors| && j != s.state.pos ==> r.stack.cursors[j] == s.cursors[j])
    ensures Valid(r.stack, plot)
  {
    match s.state
    case Idle => Step(s, [])
    case Stuck(_) => Step(s, [])
    case Dragging(p, left, right, snap) =>
      if !inAxes then DisableDragMode(s, plot)
      else
        DragBoundsInRange(s, plot);
        var v := ClosestIndex(plot.xdata, left, right, x);
        DragStepKeepsValid(s, plot, v);
        var cs := s.cursors[p := SetXDataInd(s.cursors[p], plot, v)];
        Step(s.(cursors := cs), [])
  }
}

=== FILE: wrappers.dfy ===
/** Failure-carrying datatypes shared by the cursor and the cursor stack. */
module Wrappers {

  /** An optional value: Python's `None` or a present value. */
  datatype Option<+T> = None | Some(value: T)

  /** The outcome of an operation that may raise: a value, or the error raised. */
  datatype Result<+T, +E> = Success(value: T) | Failure(error: E)
}
